=== FILE: README.md ===
# Cloud balancer: a Dafny model of its decision logic

This project models the sequential decision logic of a small HTTP load balancer
written in Go. The model has five parts.

- **Backend descriptors** (`Servers`). One descriptor is built per entry of the YAML server list. Each starts free, with a dwell of 5 seconds and the address `http://localhost:<port>/`. The module also models a backend's own busy/free flip around a request.
- **Round-robin balancer** (`RoundRobin`). A cursor runs over the descriptors. `Redirect` checks only the slot under the cursor, then always moves the cursor on by one.
- **Token buckets** (`Users`). The users table is a map from the unique name to its row. Each SQL statement is a pure transition of that map: refill, consume, change capacity/rate and create user. The admission test reads the authenticated snapshot.
- **Proxy cache** (`Proxy`). This is lookup-or-insert of reverse-proxy handles, keyed by the literal target string. The module also gives the request rewrite each handle applies.
- **Request pipeline** (`Web`). `BalancerHandler` is the fixed-order procedure method → limiter → round robin → cache → forward → consume. It yields an outcome, the forwarded request and the new shared state.

Supporting modules:

- `Wrappers` holds Option/Result/Outcome.
- `Decimal` renders integers as Go's `%d` does. It also has the parser that proves the rendering loses nothing.
- `UsersScenarios` holds the two concrete statement traces behind the findings below. Each statement of a trace is taken by a small lemma of its own.

Foreign collaborators become parameters:

- `os.ReadFile` is a `ConfigFile` that is either unreadable or holds content.
- `yaml.Unmarshal` is an `unmarshal` function.
- `url.Parse` is a `parse` function.
- The uuid API key and its SHA-512/256 digest are plain string arguments.
- The relay's answer from the backend is `backendStatus`.
- Whether `RequestDone`'s transaction committed is `commitOk`.

Behaviour of the code that the model follows:

- **Forwarded headers.** `Director` first calls `req.WithContext`, which returns a shallow copy. It then assigns the new empty header map to that copy only; the copy loop ranges over the empty map and adds nothing. The scheme and host writes go through the `*url.URL`, which both requests share. So the forwarded request keeps its original headers and gets the target's scheme and host. This reading assumes a Go release whose `WithContext` no longer clones `req.URL` (the clone was dropped under Go issue 23544). Releases that still cloned it, Go 1.13 among them, behave differently. Under them the scheme and host writes would reach only the closure's copy. The forwarded request would keep the incoming URL, which has no scheme or host, so the transport would refuse it ("unsupported protocol scheme") and the proxy would answer 502. The closure's private copy is the request left with an empty header set. `Proxy.Director` states both facts.
- **Duplicate user names.** The existence pre-check in `CreateUser` calls `Scan()` with no destinations, so it never returns nil. A duplicate name, or a duplicate key digest, is refused by the table's UNIQUE columns at the INSERT. The model refuses the insert and leaves the table unchanged.
- **Bucket bounds.** The bucket invariant `0 <= current <= capacity` is not kept by the code. `ChangeTokens` lowers the capacity without clamping the balance, and the next refill that succeeds repairs that (`Users.ChangeThenRefillBounded`). `ChangeTokens` also accepts a negative capacity or rate, which lets refills drive a balance negative (see Findings).
- **Column widths.** The users table stores capacity, balance and rate as PostgreSQL INTEGER, so they are 32-bit values. The refill sum `current_capacity + rate_per_sec` and the consumption `current_capacity - 1` are INTEGER arithmetic too. An overflow in one row makes the whole statement fail, and the transaction is rolled back. A value given to `ChangeTokens` that does not fit fails its UPDATE after the handler's snapshot has already taken it. `name` is VARCHAR(100) and `api_key` VARCHAR(64): a longer string is refused unless its excess is all spaces, which are then cut off.
- **Cursor after reconnecting.** `RRBalancer.ConnectToServers` does not reset the cursor. The cursor invariant therefore survives a reconnect exactly when the old cursor is below the new pool size. At startup the cursor is 0, so any non-empty server list gives a valid pool.

## Model

| member | source | states |
|---|---|---|
| Decimal.FormatRoundTrip | internal/servers/servers.go:105 | the decimal text `%d` prints for a port parses back to that port, negative ports included |
| Servers.AddressRoundTrip | internal/servers/servers.go:105 | the port can be read back from the built address `http://localhost:<port>/`, so the address carries exactly the port |
| Servers.AddressInjective | internal/servers/servers.go:105 | two entries get the same address exactly when their ports are equal |
| Servers.AddressFor | internal/servers/servers.go:105 | the address is the prefix `http://localhost:`, then the port as Go's `%d` prints it, then a trailing `/`; a minus sign right after the prefix shows a negative port |
| Servers.Descriptor | internal/servers/servers.go:104-108 | a built descriptor keeps its config entry and starts free with a 5-second dwell; its address is the one AddressFor builds from the entry's port |
| Servers.DescriptorCarriesPort | internal/servers/servers.go:104-105 | the descriptor's address parses back to the entry's port, and two entries get the same address exactly when their ports are equal |
| Servers.DescriptorIgnoresHost | internal/servers/servers.go:105 | the configured host plays no part in the address |
| Servers.BuildServers | internal/servers/servers.go:102-109 | exactly one descriptor per config entry, in config order |
| Servers.ConnectToServers | internal/servers/servers.go:87-117 | a read failure and a YAML failure each give their own error and no servers; otherwise one descriptor per parsed entry |
| Servers.IsFree | internal/servers/servers.go:35-41 | the balancer reads exactly the free flag the backend's own handler sets (see RoundRobin.RedirectSeesBackendFlag) |
| Servers.ServeRequest | internal/servers/servers.go:35-59 | the backend is not free while it dwells and is free again after; nothing but the flag changes |
| RoundRobin.Redirect | internal/balancer/rr_balancer.go:29-41 | returns the cursor slot's address iff that slot is free and "" otherwise; always moves the cursor one on, wrapping at the end; keeps the cursor in range and the servers and flags unchanged |
| RoundRobin.RedirectReadsOneSlot | internal/balancer/rr_balancer.go:33-36 | pools that agree on the slot under the cursor and on their size get the same answer, so no other slot is examined |
| RoundRobin.RedirectRepeatedly | internal/balancer/rr_balancer.go:29-41 | k calls in a row give k answers, keep the servers and keep the cursor in range |
| RoundRobin.RepeatedWalk | internal/balancer/rr_balancer.go:33-38 | k <= n calls from cursor c consult c, c+1, ... around the ring, answer from each consulted slot alone, and leave the cursor k positions on |
| RoundRobin.FullCycle | internal/balancer/rr_balancer.go:38 | n consecutive calls consult every slot exactly once, whatever the free flags, and return the pool to its starting state |
| RoundRobin.BusyThenFreeExample | internal/balancer/rr_balancer.go:33-38 | A busy and B free with the cursor at 0: first call "" with cursor 1, second B's address with cursor 0 |
| RoundRobin.RedirectSeesBackendFlag | internal/balancer/rr_balancer.go:33-36 | while the slot under the cursor is serving a request Redirect answers "", and once the request is done it answers that slot's address |
| RoundRobin.ConnectToServers | internal/balancer/rr_balancer.go:18-27 | on error the pool is unchanged; on success the servers are replaced and the cursor is kept, so validity holds iff the old cursor is below the new size; from the zero-value balancer, iff the list is non-empty |
| Users.Refill | internal/users/users.go:67-70 | the new balance is the least of balance+rate and capacity; nothing else in the row changes; it stays non-negative when balance, rate and capacity are |
| Users.UpdateTokens | internal/users/users.go:61-78 | fails, refilling nobody, iff some row's INTEGER sum balance+rate overflows; otherwise every user is refilled, none is added or removed, every balance ends at most its capacity, and every column stays an INTEGER |
| Users.UpdateTokensWide | internal/users/users.go:67-70 | the refill summed in 64 bits: on a table of non-negative INTEGER rows it always succeeds and leaves every bucket within 0..capacity; where the source's refill succeeds, both agree |
| Users.OverflowStopsRefills | internal/users/users.go:67-75 | once one row's refill sum overflows, any number of further refills leave the whole table exactly as it is |
| UsersScenarios.AsWrittenOverflowStopsRefills | internal/users/users.go:69 | after u changes to capacity 5 and rate -2147483648, u's balance is -2147483643 after one refill; the next refill fails, and any number of further refills leave v at the 4 tokens it was down to |
| Users.Consume | internal/users/users.go:148-151 | the new balance is the greatest of balance-1 and 0: never negative, never more than one token less, never above a non-negative start |
| Users.RequestDone | internal/users/users.go:142-159 | consumes a token of the named user only; every other row is unchanged; an unknown name changes nothing; it fails, changing nothing, iff balance-1 leaves the INTEGER range, which for an INTEGER balance means the lowest one |
| Users.RepeatedRequestDone | internal/users/users.go:150 | k consumptions with no refill leave max(c-k, 0), which for c >= 0 is a drop of min(k, c); the lowest INTEGER balance never changes; other users are untouched |
| Users.CheckCanRequest | internal/users/users.go:134-140 | fails iff the snapshot's balance is <= 0 |
| Users.RefillAdmits | internal/users/users.go:67-70 | after a refill that succeeds, a user passes the admission test exactly when balance plus rate and the capacity are both positive; a positive capacity and rate with a non-negative balance always pass |
| Users.RefillThenAdmitExample | internal/users/users.go:69 | when no row overflows, an empty bucket of capacity 5 and rate 1 holds 1 token after one refill, and the admission test then passes |
| Users.SetTokens | internal/users/users.go:122-125 | writes capacity and rate of the named row only; balance and key digest are kept; other rows are unchanged |
| Users.ChangeTokens | internal/users/users.go:109-132 | fails iff both new values are <= 0 or one does not fit an INTEGER. The "inappropriate tokens" refusal is given exactly when both are <= 0, and it changes neither snapshot nor table. Past that check the snapshot always takes the new values. Every other failure is the INTEGER-range error, which an out-of-range value always gets, and it leaves the table unchanged. Success sets capacity and rate of the named row only |
| Users.ChangeTokensExamples | internal/users/users.go:115-129 | (0, 0) is rejected; (5, 0), (5, -3) and (5, -2147483648) are accepted; (2147483648, 1) fails at the UPDATE with the snapshot changed and the table not |
| Users.ChangeThenRefillBounded | internal/users/users.go:69 | after a capacity change, the next refill that succeeds brings the balance under the new capacity |
| Users.ChangeTokensGuarded | internal/users/users.go:115-120 | the corrected guard: also rejects a negative value or one beyond the INTEGER range, before the snapshot is touched, and agrees with the source on every pair it accepts |
| Users.CreateUser | internal/users/users.go:31-52 | a name past 100 characters, or a digest past 64, with anything but spaces beyond the width is refused; so is a taken name or digest, with a unique violation; every refusal leaves the table unchanged. When both values fit their widths, the insert succeeds exactly when the name and digest, cut to their widths, are both free. It then stores a row with capacity 5, balance 5 and rate 1 under the cut name, and the response echoes the name as given, 5, 1 and the key |
| Users.CreateUserWidthExample | internal/db/db.go:44 | a 101-character name is refused, while 100 characters plus a trailing space are stored as the 100 characters |
| Users.ReplayKeepsInRange | internal/db/db.go:46-48 | every sequence of the statements, as written or corrected, keeps every number in the table within the INTEGER range |
| Users.StepKeepsNonNegative | internal/users/users.go:61-159 | the 64-bit refill, consume, the guarded change and create each keep every bucket's balance, capacity and rate non-negative and INTEGER |
| Users.GuardedReplayKeepsNonNegative | internal/users/users.go:61-159 | any sequence of those corrected statements keeps every bucket non-negative and within the INTEGER range |
| Users.TickBounds | internal/users/users.go:69 | on a non-negative INTEGER table the 64-bit refill succeeds, and then every bucket satisfies 0 <= balance <= capacity |
| UsersScenarios.AsWrittenReplayGoesNegative | internal/users/users.go:115-120 | with the source's check, create, change to (5, -3) and two refills leave a balance of -1 |
| Proxy.NewProxyCache | internal/web/proxy.go:50-54 | the cache starts empty, which satisfies the cache invariants |
| Proxy.Get | internal/web/proxy.go:15-48 | hit returns the stored handle and leaves the cache unchanged; an unparsable miss errs and leaves the cache unchanged; a parsable miss adds exactly one fresh handle under the literal target; entries are never removed or replaced; the invariants are kept |
| Proxy.GetTwiceSameHandle | internal/web/proxy.go:19-21 | two calls with the same target that parses return the same handle, and the second leaves the cache as the first did |
| Proxy.DistinctTargetsDistinctHandles | internal/web/proxy.go:28-47 | different targets never receive the same handle |
| Proxy.CanonicalKeyIdempotent | internal/web/proxy.go:38 | the key Header.Add files a value under is its own canonical form |
| Proxy.CopyHeadersOnto | internal/web/proxy.go:35-40 | the loop that ranges over the map it adds to only appends values; from the fresh empty map it yields the empty map; on a map with canonical keys it doubles every value list |
| Proxy.CopyLoopDoubles | internal/web/proxy.go:36-40 | with canonical keys, each visited key's values are appended to themselves, and nothing else changes |
| Proxy.CopyHeadersOntoExample | internal/web/proxy.go:36-39 | on a map holding `x-a`, the loop keeps `x-a` and adds its value again under `X-A` |
| Proxy.Director | internal/web/proxy.go:29-45 | the forwarded request gets the target's scheme and host, with path, query, method, headers and body unchanged; the closure's private copy ends with an empty header set and shares the rewritten URL |
| Proxy.DirectorIdempotent | internal/web/proxy.go:43-44 | rewriting an already rewritten request changes nothing |
| Proxy.Forward | internal/web/proxy.go:28-29 | a handle sends the request to its own target's scheme and host and changes nothing else |
| Web.StatusCode | internal/web/web_balancer.go:13-41 | early exits answer with a 4xx or 5xx status of their own, only 405 and 429 being client errors; a proxied request answers with the backend's status |
| Web.BalancerHandler | internal/web/web_balancer.go:11-49 | interactions happen in the fixed order, each at most once. Non-GET gives 405 with nothing touched. A failed limit gives 429 without calling Redirect. An empty Redirect gives 503 after exactly the limit check and Redirect, with cache and store untouched. The 500 is given exactly when Redirect names a target whose Get fails, and consumes no token. An admitted GET whose target gets a handle is proxied. The resulting cache is the one Get leaves, and the forwarded request is that handle's rewrite of the incoming one. Any request that reaches Redirect advances the cursor exactly once. Only proxied requests are forwarded, to the chosen target, followed by exactly one RequestDone, whose failed statement or commit keeps the table and is reported |
| Web.FreeSlotIsProxied | internal/web/web_balancer.go:25-45 | for any state, an admitted GET whose cursor slot is free and whose address is cached or parses is proxied. It moves the cursor on, caches the handle and forwards to that handle's host. It runs RequestDone exactly once, and the consumption is kept when the statement and its commit succeed |
| Web.TwoRequestsExample | internal/web/web_balancer.go:19-47 | with A busy and B free, the first request gets 503 and moves the cursor to B. The second is proxied to B, caches B's handle, consumes one token and wraps the cursor back to A |

## Left out

- Backend listeners, the dwell sleep, the stop channels and the graceful shutdown of each backend (servers.go:43-84) are left out. They are concurrency and I/O. Only the flag flip around a request is modelled.
- `RRBalancer.Close`, with its stop broadcast and WaitGroup barrier (rr_balancer.go:43-53), is left out. It is concurrency plumbing with no sequential decision logic.
- The mutexes, and the race between `IsFree` and a backend's own flag flip, are left out. Everything is modelled sequentially.
- The relay by `httputil.ReverseProxy` is a parameter (`backendStatus`). Its own header handling (hop-by-hop removal, X-Forwarded-For) is left out. So is the `Host` field, which the custom Director does not rewrite.
- Failures to begin a transaction are left out (UpdateTokens, ChangeTokens, RequestDone), and so are commit failures of UpdateTokens and ChangeTokens. Only `RequestDone`'s commit is a parameter, because the pipeline reports it. Statement failures that PostgreSQL raises from the data itself are modelled: INTEGER overflow, VARCHAR width and UNIQUE violations. `CreateUser` opens no transaction and runs one INSERT.
- `ChangeTokens` leaves its transaction open when it rejects. That is a resource leak, not a state change, so it is left out.
- `User.Auth`, the `UserAuth` wrapper and the profile, change and create HTTP handlers (web_user.go) are left out. They are authentication and JSON glue. The pipeline receives the authenticated snapshot as an input.
- Database connection and table creation (db.go) and process wiring, the 1-second ticker and signal handling (main.go) are left out. The table's column types are reflected in `Users`: the UNIQUE columns, the VARCHAR widths and the INTEGER range.
- Users.CreateUser: a name holding a NUL character, which PostgreSQL text refuses, is not refused by the model. The database encoding is taken to be UTF-8, so the VARCHAR width counts Unicode code points, as Dafny's `char` does.
- The JSON decoding of a token-change body (web_user.go) is left out. A number beyond Go's 64-bit `int` is refused there and never reaches `ChangeTokens`. Values that do reach it but lie outside the INTEGER range fail at its UPDATE, as modelled.
- Proxy.CopyHeadersOnto: visits only the keys present when the loop starts. Go's range may also visit a key the loop itself adds; the model does not. The Director's map is empty, so this cannot arise there.
- Logging is left out.
- RoundRobin.Redirect: requires the cursor to be in range. The Go code indexes the slot unconditionally and panics otherwise; the panic is not modelled.
- RoundRobin.RepeatedWalk: is stated for at most one full cycle (k <= n). Longer runs are covered by repeating `FullCycle`.

## Findings

| source | as written | input that shows it | evidently intended | confidence | as-written member | corrected member |
|---|---|---|---|---|---|---|
| internal/users/users.go:115 | `ChangeTokens` rejects only when capacity and rate are both <= 0, so a negative rate or capacity is stored | a new user (balance 5) changes to capacity 5, rate -3; two refills leave balance -1 | also reject a negative capacity or rate, so that no bucket balance can become negative | medium, not executed | UsersScenarios.AsWrittenReplayGoesNegative | Users.ChangeTokensGuarded |
| internal/users/users.go:69 | the refill sums `current_capacity + rate_per_sec` in INTEGER arithmetic, and one overflowing row fails the whole UPDATE | u changes to capacity 5 and rate -2147483648; the first refill leaves u at -2147483643, the second overflows, and from then on no user is refilled (capacity 5 and rate 2147483647 overflow the same way) | refill every user on every tick, with each balance kept within its column: sum in 64 bits, with the guarded change keeping values non-negative INTEGERs | medium, not executed | UsersScenarios.AsWrittenOverflowStopsRefills | Users.UpdateTokensWide |

=== FILE: decimal.dfy ===
/** Decimal rendering of integers as Go's `%d` verb prints them, and the
    matching parser used to state that the rendering loses nothing. */
module Decimal {
  import opened Wrappers

  predicate IsDigit(c: char) {
    '0' <= c <= '9'
  }

  predicate AllDigits(s: string) {
    forall i | 0 <= i < |s| :: IsDigit(s[i])
  }

  function DigitValue(c: char): (d: nat)
    requires IsDigit(c)
    ensures d < 10
  {
    c as int - '0' as int
  }

  function DigitChar(d: nat): (c: char)
    requires d < 10
    ensures IsDigit(c) && DigitValue(c) == d
  {
    ('0' as int + d) as char
  }

  /** The digits of `n`, most significant first, without leading zeros. */
  function NatToDecimal(n: nat): (s: string)
    ensures 1 <= |s|
    ensures AllDigits(s)
    ensures |s| > 1 ==> s[0] != '0'
    decreases n
  {
    if n < 10 then [DigitChar(n)] else NatToDecimal(n / 10) + [DigitChar(n % 10)]
  }

  /** The value of a string of decimal digits (the empty string is 0). */
  function DigitsValue(s: string): nat
    requires AllDigits(s)
  {
    if |s| == 0 then 0 else DigitsValue(s[..|s| - 1]) * 10 + DigitValue(s[|s| - 1])
  }

  /** Go's `%d`: an optional minus sign followed by the magnitude's digits. */
  function FormatInt(n: int): (s: string)
    ensures 1 <= |s|
    ensures s[0] == '-' <==> n < 0
  {
    if n < 0 then "-" + NatToDecimal(-n) else NatToDecimal(n)
  }

  /** Reads back what FormatInt writes: `-`? digit+. */
  function ParseInt(s: string): Option<int> {
    if 1 < |s| && s[0] == '-' && AllDigits(s[1..]) then Some(0 - DigitsValue(s[1..]) as int)
    else if 0 < |s| && AllDigits(s) then Some(DigitsValue(s))
    else None
  }

  lemma {:induction false} NatRoundTrip(n: nat)
    ensures DigitsValue(NatToDecimal(n)) == n
    decreases n
  {
    if n >= 10 {
      var s := NatToDecimal(n);
      var front := NatToDecimal(n / 10);
      assert s == front + [DigitChar(n % 10)];
      assert s[..|s| - 1] == front;
      NatRoundTrip(n / 10);
    }
  }

  /** Formatting is inverted by parsing, so distinct integers print differently. */
  lemma FormatRoundTrip(n: int)
    ensures ParseInt(FormatInt(n)) == Some(n)
  {
    var s := FormatInt(n);
    if n < 0 {
      assert s[1..] == NatToDecimal(-n);
      NatRoundTrip(-n);
    } else {
      NatRoundTrip(n);
    }
  }
}

=== FILE: proxy.dfy ===
/** The proxy cache: one reverse-proxy handle per literal target string,
    built lazily and never evicted, and the request rewrite each handle applies. */
module Proxy {
  import opened Wrappers

  /** The parts of a parsed URL the rewrite touches or must leave alone. */
  datatype Url = Url(scheme: string, host: string, path: string, rawQuery: string)

  type Header = map<string, seq<string>>

  datatype Request = Request(verb: string, url: Url, header: Header, body: string)

  /** A reverse-proxy instance. `id` stands for its identity (the `*ReverseProxy` the
      cache hands out); `target` is the URL it was built for. */
  datatype Handle = Handle(id: nat, target: Url)

  /** `nextId` models allocation: a handle built now has an id no earlier
      handle has. */
  datatype ProxyCache = ProxyCache(cached: map<string, Handle>, nextId: nat)

  datatype ParseError = ParseError

  /** Every cached handle was allocated before `nextId`. */
  predicate Allocated(c: ProxyCache) {
    forall k | k in c.cached :: c.cached[k].id < c.nextId
  }

  /** No handle is shared by two keys. */
  predicate DistinctHandles(c: ProxyCache) {
    forall k1, k2 | k1 in c.cached && k2 in c.cached && k1 != k2 :: c.cached[k1].id != c.cached[k2].id
  }

  predicate CacheInvariant(c: ProxyCache) {
    Allocated(c) && DistinctHandles(c)
  }

  /** Every cached handle points at the parse of its own key. */
  predicate TargetsParsed(c: ProxyCache, parse: string -> Option<Url>) {
    forall k | k in c.cached :: parse(k) == Some(c.cached[k].target)
  }

  function NewProxyCache(): (c: ProxyCache)
    ensures c.cached == map[]
    ensures CacheInvariant(c)
    ensures forall parse: string -> Option<Url> :: TargetsParsed(c, parse)
  {
    ProxyCache(map[], 0)
  }

  datatype Got = Got(handle: Result<Handle, ParseError>, cache: ProxyCache)

  /** Lookup-or-insert keyed by the literal target. `parse` stands for
      url.Parse, which may refuse the string. */
  function Get(c: ProxyCache, target: string, parse: string -> Option<Url>): (g: Got)
    ensures target in c.cached ==> g == Got(Success(c.cached[target]), c)
    ensures target !in c.cached && parse(target).None? ==> g == Got(Failure(ParseError), c)
    ensures target !in c.cached && parse(target).Some? ==>
      && g.handle.Success?
      && g.handle.value.target == parse(target).value
      && g.cache.cached == c.cached[target := g.handle.value]
      && (Allocated(c) ==> forall k | k in c.cached :: c.cached[k].id != g.handle.value.id)
    ensures g.handle.Success? ==> target in g.cache.cached && g.cache.cached[target] == g.handle.value
    ensures c.cached.Keys <= g.cache.cached.Keys
    ensures forall k | k in c.cached :: g.cache.cached[k] == c.cached[k]
    ensures |g.cache.cached| <= |c.cached| + 1
    ensures CacheInvariant(c) ==> CacheInvariant(g.cache)
    ensures TargetsParsed(c, parse) ==> TargetsParsed(g.cache, parse)
  {
    if target in c.cached then Got(Success(c.cached[target]), c)
    else
      match parse(target)
      case None => Got(Failure(ParseError), c)
      case Some(u) =>
        var proxy := Handle(c.nextId, u);
        Got(Success(proxy), ProxyCache(c.cached[target := proxy], c.nextId + 1))
  }

  /** Asking twice for a target that parses yields the same handle, and the
      second call leaves the cache as the first one left it. */
  lemma GetTwiceSameHandle(c: ProxyCache, target: string, parse: string -> Option<Url>)
    requires parse(target).Some? || target in c.cached
    ensures var first := Get(c, target, parse);
      var second := Get(first.cache, target, parse);
      && first.handle.Success?
      && second == first
  {
  }

  /** Different targets never receive the same handle. */
  lemma DistinctTargetsDistinctHandles(c: ProxyCache, t1: string, t2: string, parse: string -> Option<Url>)
    requires CacheInvariant(c) && t1 != t2
    ensures var g1 := Get(c, t1, parse); var g2 := Get(g1.cache, t2, parse);
      g1.handle.Success? && g2.handle.Success? ==> g1.handle.value.id != g2.handle.value.id
  {
  }

  // ---------------------------------------------------------------------------
  // Header keys as http.Header.Add stores them (textproto.CanonicalMIMEHeaderKey)

  /** The characters of an HTTP token (section 3.2.6 of RFC 7230). */
  predicate TokenChar(c: char) {
    || ('a' <= c <= 'z') || ('A' <= c <= 'Z') || ('0' <= c <= '9')
    || c in "!#$%&'*+-.^_`|~"
  }

  predicate IsToken(k: string) {
    forall i | 0 <= i < |k| :: TokenChar(k[i])
  }

  /** One character of the canonical form: upper case where `upper` holds,
      lower case elsewhere; only ASCII letters change. */
  function CaseChar(c: char, upper: bool): (d: char)
    ensures TokenChar(c) ==> TokenChar(d)
    ensures d == '-' <==> c == '-'
  {
    if upper && 'a' <= c <= 'z' then (c as int - 32) as char
    else if !upper && 'A' <= c <= 'Z' then (c as int + 32) as char
    else c
  }

  /** Upper case at the start (`upper`) and after every hyphen, lower case
      everywhere else. */
  function Canonicalize(k: string, upper: bool): (c: string)
    ensures |c| == |k|
    ensures IsToken(k) ==> IsToken(c)
    ensures forall i | 0 <= i < |k| :: c[i] == '-' <==> k[i] == '-'
    decreases |k|
  {
    if |k| == 0 then []
    else [CaseChar(k[0], upper)] + Canonicalize(k[1..], k[0] == '-')
  }

  /** The key Header.Add files a value under: a key made of token characters
      is canonicalized; any other key is kept as given. */
  function CanonicalKey(k: string): (c: string)
    ensures |c| == |k|
    ensures !IsToken(k) ==> c == k
  {
    if IsToken(k) then Canonicalize(k, true) else k
  }

  lemma {:induction false} CanonicalizeIdempotent(k: string, upper: bool)
    ensures Canonicalize(Canonicalize(k, upper), upper) == Canonicalize(k, upper)
    decreases |k|
  {
    if |k| > 0 {
      var c := Canonicalize(k, upper);
      assert c[0] == CaseChar(k[0], upper) && c[1..] == Canonicalize(k[1..], k[0] == '-');
      CanonicalizeIdempotent(k[1..], k[0] == '-');
    }
  }

  /** A canonical key is its own canonical form, so values added under it
      again land under the same key. */
  lemma CanonicalKeyIdempotent(k: string)
    ensures CanonicalKey(CanonicalKey(k)) == CanonicalKey(k)
  {
    if IsToken(k) {
      CanonicalizeIdempotent(k, true);
    }
  }

  /** Header.Add: appends one value under the canonical key. */
  function AddHeader(h: Header, key: string, value: string): Header {
    var k := CanonicalKey(key);
    h[k := (if k in h then h[k] else []) + [value]]
  }

  /** The inner loop: every value of `values`, in order, through Header.Add. */
  function AddValues(h: Header, key: string, values: seq<string>): (h': Header)
    ensures var k := CanonicalKey(key);
      && h'.Keys == (if |values| == 0 then h.Keys else h.Keys + {k})
      && (|values| > 0 ==> h'[k] == (if k in h then h[k] else []) + values)
      && forall j | j in h && j != k :: h'[j] == h[j]
    decreases |values|
  {
    if |values| == 0 then h
    else
      var k := CanonicalKey(key);
      var h1 := AddHeader(h, key, values[0]);
      assert h1[k] == (if k in h then h[k] else []) + [values[0]];
      assert (if k in h then h[k] else []) + values == h1[k] + values[1..];
      AddValues(h1, key, values[1..])
  }

  predicate Distinct(keys: seq<string>) {
    forall i, j | 0 <= i < j < |keys| :: keys[i] != keys[j]
  }

  /** The outer loop, which ranges over the very map it adds to. `keys` is the
      order in which the range visits the keys present when it starts; each
      visit reads that key's values as they are at that moment. */
  function CopyLoop(h: Header, keys: seq<string>): (h': Header)
    requires Distinct(keys)
    requires forall i | 0 <= i < |keys| :: keys[i] in h
    ensures h.Keys <= h'.Keys
    ensures forall k | k in h :: h[k] <= h'[k]
    decreases |keys|
  {
    if |keys| == 0 then h
    else
      var k0 := keys[0];
      var h1 := AddValues(h, k0, h[k0]);
      var rest := keys[1..];
      assert forall i | 0 <= i < |rest| :: rest[i] == keys[i + 1];
      CopyLoop(h1, rest)
  }

  /** Every key of `h` is already in canonical form. */
  predicate CanonicalKeys(h: Header) {
    forall k | k in h :: CanonicalKey(k) == k
  }

  /** Adding a canonical key's own values to it doubles them in place. */
  lemma AddOwnValues(h: Header, k: string)
    requires k in h && CanonicalKey(k) == k
    ensures AddValues(h, k, h[k]) == h[k := h[k] + h[k]]
  {
    var h1 := AddValues(h, k, h[k]);
    if |h[k]| == 0 {
      assert h[k] + h[k] == h[k];
      assert h[k := h[k]] == h;
    } else {
      assert h1.Keys == h[k := h[k] + h[k]].Keys;
      assert h1[k] == h[k] + h[k];
    }
  }

  /** Where every key is canonical, the loop appends each visited key's
      values to themselves and touches nothing else. */
  lemma {:induction false} CopyLoopDoubles(h: Header, keys: seq<string>)
    requires Distinct(keys)
    requires forall i | 0 <= i < |keys| :: keys[i] in h
    ensures var h' := CopyLoop(h, keys);
      CanonicalKeys(h) ==>
      && h'.Keys == h.Keys
      && (forall k | k in h && k !in keys :: h'[k] == h[k])
      && (forall k | k in keys :: h'[k] == h[k] + h[k])
    decreases |keys|
  {
    if |keys| > 0 && CanonicalKeys(h) {
      var k0 := keys[0];
      var h1 := AddValues(h, k0, h[k0]);
      var rest := keys[1..];
      assert forall i | 0 <= i < |rest| :: rest[i] == keys[i + 1];
      AddOwnValues(h, k0);
      assert h1.Keys == h.Keys;
      CopyLoopDoubles(h1, rest);
      var r := CopyLoop(h1, rest);
      assert CopyLoop(h, keys) == r;
      assert k0 !in rest;
      forall k | k in keys
        ensures r[k] == h[k] + h[k]
      {
        if k != k0 {
          assert k in rest;
        }
      }
    }
  }

  /** Copying a header map onto itself, as the Director's loop does: `keys`
      enumerates the map's keys, in Go's unspecified range order. Values are
      only ever appended; from an empty map the loop yields the empty map;
      and where every key is already canonical, every value list comes out
      doubled. */
  function CopyHeadersOnto(h: Header, keys: seq<string>): (h': Header)
    requires Distinct(keys)
    requires forall i | 0 <= i < |keys| :: keys[i] in h
    requires forall k | k in h :: k in keys
    ensures h == map[] ==> h' == map[]
    ensures h.Keys <= h'.Keys
    ensures forall k | k in h :: h[k] <= h'[k]
    ensures CanonicalKeys(h) ==> h'.Keys == h.Keys && forall k | k in h :: h'[k] == h[k] + h[k]
  {
    CopyLoopDoubles(h, keys);
    CopyLoop(h, keys)
  }

  /** Run on a non-empty map, the loop would not copy in place: the value of
      `x-a` is added again under its canonical key `X-A`. */
  lemma CopyHeadersOntoExample()
    ensures CopyHeadersOnto(map["x-a" := ["1"]], ["x-a"]) == map["x-a" := ["1"], "X-A" := ["1"]]
  {
    assert IsToken("x-a");
    assert Canonicalize("", false) == "";
    assert Canonicalize("a", true) == "A";
    assert Canonicalize("-a", false) == "-A";
    assert CanonicalKey("x-a") == "X-A";
    var h := map["x-a" := ["1"]];
    assert "X-A" != "x-a" by { assert "X-A"[0] != "x-a"[0]; }
    assert "X-A" !in h;
    assert AddHeader(h, "x-a", "1") == h["X-A" := [] + ["1"]];
    assert [] + ["1"] == ["1"];
    var h1 := AddValues(h, "x-a", ["1"]);
    assert h1 == AddValues(AddHeader(h, "x-a", "1"), "x-a", []);
    assert h1 == map["x-a" := ["1"], "X-A" := ["1"]];
    assert CopyLoop(h, ["x-a"]) == CopyLoop(h1, []);
  }

  /** What the Director closure leaves behind. `req.WithContext` makes a
      shallow copy: the copy shares its URL with the outgoing request but has
      a Header field of its own. */
  datatype DirectorRun = DirectorRun(forwarded: Request, closureRequest: Request)

  function Director(u: Url, outreq: Request): (d: DirectorRun)
    ensures d.forwarded.url.scheme == u.scheme && d.forwarded.url.host == u.host
    ensures d.forwarded.url.path == outreq.url.path && d.forwarded.url.rawQuery == outreq.url.rawQuery
    ensures d.forwarded.(url := outreq.url) == outreq
    ensures d.closureRequest.header == map[]
    ensures d.closureRequest.url == d.forwarded.url
  {
    // the shallow copy made by WithContext
    var copy := outreq;
    // `req.Header = make(http.Header)` rebinds the copy's field only, and the
    // loop then ranges over that fresh, empty map, which has no keys to visit
    var wiped := copy.(header := map[]);
    var copied := wiped.(header := CopyHeadersOnto(wiped.header, []));
    // the scheme and host writes go through the shared URL
    var url := outreq.url.(scheme := u.scheme, host := u.host);
    DirectorRun(outreq.(url := url), copied.(url := url))
  }

  /** Rewriting an already rewritten request changes nothing more. */
  lemma DirectorIdempotent(u: Url, outreq: Request)
    ensures var once := Director(u, outreq).forwarded;
      Director(u, once).forwarded == once
  {
  }

  /** The request a handle sends to its backend. */
  function Forward(h: Handle, req: Request): (fwd: Request)
    ensures fwd.url.scheme == h.target.scheme && fwd.url.host == h.target.host
    ensures fwd.(url := req.url) == req
  {
    Director(h.target, req).forwarded
  }
}

=== FILE: round_robin.dfy ===
/** The round-robin balancer: a cursor over the backend descriptors that checks
    only the slot under it and then always moves on by one. */
module RoundRobin {
  import opened Wrappers
  import opened Servers

  /** The balancer's state. */
  datatype Pool = Pool(servers: seq<Server>, cursor: int)

  /** The zero value the balancer starts from: no servers, cursor 0. */
  function EmptyPool(): Pool {
    Pool([], 0)
  }

  /** Redirect indexes the slot under the cursor unconditionally, so this is
      what a caller must guarantee (otherwise the Go code panics). */
  predicate Valid(p: Pool) {
    0 <= p.cursor < |p.servers|
  }

  /** The cursor position that follows `c` in a pool of `n` servers. */
  function Next(c: int, n: int): int {
    if c + 1 < n then c + 1 else 0
  }

  datatype Redirected = Redirected(address: string, pool: Pool)

  function Redirect(p: Pool): (r: Redirected)
    requires Valid(p)
    ensures Valid(r.pool)
    ensures r.pool.servers == p.servers
    ensures r.pool.cursor == Next(p.cursor, |p.servers|)
    ensures IsFree(p.servers[p.cursor]) ==> r.address == p.servers[p.cursor].address
    ensures !IsFree(p.servers[p.cursor]) ==> r.address == ""
  {
    var slot := p.servers[p.cursor];
    var address := if IsFree(slot) then slot.address else "";
    Redirected(address, p.(cursor := (p.cursor + 1) % |p.servers|))
  }

  /** Only the slot under the cursor decides the answer: pools that agree on
      that slot and on their size answer alike and move alike. */
  lemma RedirectReadsOneSlot(p: Pool, q: Pool)
    requires Valid(p) && Valid(q)
    requires p.cursor == q.cursor && |p.servers| == |q.servers|
    requires p.servers[p.cursor] == q.servers[q.cursor]
    ensures Redirect(p).address == Redirect(q).address
    ensures Redirect(p).pool.cursor == Redirect(q).pool.cursor
  {
  }

  /** The answers, and the cursor positions consulted, of `k` calls in a row. */
  datatype Run = Run(addresses: seq<string>, consulted: seq<int>, pool: Pool)

  function RedirectRepeatedly(p: Pool, k: nat): (r: Run)
    requires Valid(p)
    ensures |r.addresses| == k && |r.consulted| == k
    ensures Valid(r.pool) && r.pool.servers == p.servers
    decreases k
  {
    if k == 0 then Run([], [], p)
    else
      var first := Redirect(p);
      var rest := RedirectRepeatedly(first.pool, k - 1);
      Run([first.address] + rest.addresses, [p.cursor] + rest.consulted, rest.pool)
  }

  /** Position `c + i` taken around a ring of `n` slots, for `i <= n`. */
  function Around(c: int, i: int, n: int): int {
    if c + i < n then c + i else c + i - n
  }

  /** `k <= n` calls starting at cursor `c` consult c, c+1, ... in ring order,
      answer from the consulted slot alone, and leave the cursor `k` further on. */
  lemma {:induction false} RepeatedWalk(p: Pool, k: nat)
    requires Valid(p) && k <= |p.servers|
    ensures var r := RedirectRepeatedly(p, k);
      && r.pool.cursor == Around(p.cursor, k, |p.servers|)
      && (forall i | 0 <= i < k :: r.consulted[i] == Around(p.cursor, i, |p.servers|))
      && (forall i | 0 <= i < k ::
            0 <= r.consulted[i] < |p.servers| &&
            r.addresses[i] == (if IsFree(p.servers[r.consulted[i]]) then p.servers[r.consulted[i]].address else ""))
    decreases k
  {
    if k > 0 {
      var n := |p.servers|;
      var first := Redirect(p);
      RepeatedWalk(first.pool, k - 1);
      var r := RedirectRepeatedly(p, k);
      var rest := RedirectRepeatedly(first.pool, k - 1);
      assert r.consulted == [p.cursor] + rest.consulted;
      assert r.addresses == [first.address] + rest.addresses;
      forall i | 0 < i < k
        ensures r.consulted[i] == Around(p.cursor, i, n)
      {
        assert r.consulted[i] == rest.consulted[i - 1];
      }
    }
  }

  /** A full cycle of `|servers|` calls consults every slot exactly once, in
      order from the cursor, whatever the free flags say, and returns the pool
      to the state it started in. */
  lemma FullCycle(p: Pool)
    requires Valid(p)
    ensures var n := |p.servers|; var r := RedirectRepeatedly(p, n);
      && r.pool == p
      && (forall i | 0 <= i < n :: r.consulted[i] == Around(p.cursor, i, n))
      && (forall i, j | 0 <= i < j < n :: r.consulted[i] != r.consulted[j])
      && (forall s | 0 <= s < n :: s in r.consulted)
  {
    var n := |p.servers|;
    RepeatedWalk(p, n);
    var r := RedirectRepeatedly(p, n);
    forall s | 0 <= s < n
      ensures s in r.consulted
    {
      var i := if p.cursor <= s then s - p.cursor else s + n - p.cursor;
      assert r.consulted[i] == s;
    }
  }

  /** The two-server example: A busy and B free with the cursor on A. */
  lemma BusyThenFreeExample(a: Server, b: Server)
    requires !a.free && b.free
    ensures var p := Pool([a, b], 0);
      && Redirect(p) == Redirected("", Pool([a, b], 1))
      && Redirect(Redirect(p).pool) == Redirected(b.address, Pool([a, b], 0))
  {
  }

  /** The balancer holds the very descriptors whose flags the backends flip
      (the slice shares its array with the running servers), so while the
      slot under the cursor is serving a request Redirect answers "", and
      once that request is done it answers the slot's address. */
  lemma RedirectSeesBackendFlag(p: Pool)
    requires Valid(p)
    ensures var s := p.servers[p.cursor];
      var d := ServeRequest(s);
      && Redirect(p.(servers := p.servers[p.cursor := d.during])).address == ""
      && Redirect(p.(servers := p.servers[p.cursor := d.after])).address == s.address
  {
  }

  /** RRBalancer.ConnectToServers: on failure the pool is untouched; on success
      the servers are replaced and the cursor is kept as it was. */
  method ConnectToServers(p: Pool, file: ConfigFile, unmarshal: string -> Option<seq<ServerConf>>)
    returns (err: Option<ConfigError>, p': Pool)
    ensures err.Some? ==> p' == p
    ensures err.Some? <==> file.Unreadable? || unmarshal(file.content).None?
    ensures err.None? ==> p'.cursor == p.cursor
    ensures err.None? ==> |p'.servers| == |unmarshal(file.content).value|
    ensures err.None? ==> forall i | 0 <= i < |p'.servers| ::
      p'.servers[i] == Descriptor(unmarshal(file.content).value[i])
    ensures err.None? ==> (Valid(p') <==> 0 <= p.cursor < |unmarshal(file.content).value|)
    ensures err.None? && p == EmptyPool() ==> (Valid(p') <==> |unmarshal(file.content).value| > 0)
  {
    var r := Servers.ConnectToServers(file, unmarshal);
    if r.Failure? {
      assert r.error == ReadError || r.error == YamlError;
      return Some(r.error), p;
    }
    return None, p.(servers := r.value);
  }
}

=== FILE: servers.dfy ===
/** Backend descriptors: how they are built from the parsed configuration and
    how a backend's own request handler flips its busy/free flag. */
module Servers {
  import opened Wrappers
  import opened Decimal

  /** Every backend address is on localhost; only the port varies. */
  const AddressPrefix: string := "http://localhost:"

  /** Seconds a backend holds each request before answering. */
  const DwellSeconds: int := 5

  /** One entry of the `servers` list of the YAML configuration. */
  datatype ServerConf = ServerConf(name: string, host: string, port: int)

  /** A backend descriptor. The mutex and the stop channel are not modelled. */
  datatype Server = Server(conf: ServerConf, address: string, free: bool, timeoutSeconds: int)

  /** What reading the configuration file produced (os.ReadFile is foreign). */
  datatype ConfigFile = Unreadable | Readable(content: string)

  datatype ConfigError = ReadError | YamlError

  /** The address built for a port: the configured host plays no part. */
  function AddressFor(port: int): (a: string)
    ensures |AddressPrefix| + 2 <= |a|
    ensures a[..|AddressPrefix|] == AddressPrefix
    ensures a[|AddressPrefix|..|a| - 1] == FormatInt(port)
    ensures a[|a| - 1] == '/'
    ensures a[|AddressPrefix|] == '-' <==> port < 0
  {
    AddressPrefix + FormatInt(port) + "/"
  }

  /** Recovers the port from an address of the AddressFor shape. */
  function PortOf(address: string): Option<int> {
    if |AddressPrefix| < |address| && address[..|AddressPrefix|] == AddressPrefix
       && address[|address| - 1] == '/'
    then ParseInt(address[|AddressPrefix|..|address| - 1])
    else None
  }

  lemma AddressRoundTrip(port: int)
    ensures PortOf(AddressFor(port)) == Some(port)
  {
    var a := AddressFor(port);
    assert a[..|AddressPrefix|] == AddressPrefix;
    assert a[|AddressPrefix|..|a| - 1] == FormatInt(port);
    FormatRoundTrip(port);
  }

  /** Two configured ports never share an address. */
  lemma AddressInjective(p: int, q: int)
    ensures AddressFor(p) == AddressFor(q) <==> p == q
  {
    if AddressFor(p) == AddressFor(q) {
      AddressRoundTrip(p);
      AddressRoundTrip(q);
    }
  }

  /** The descriptor made for one configuration entry. */
  function Descriptor(sd: ServerConf): (s: Server)
    ensures s.conf == sd
    ensures s.free && s.timeoutSeconds == DwellSeconds
    ensures s.address == AddressFor(sd.port)
  {
    Server(sd, AddressFor(sd.port), true, DwellSeconds)
  }

  /** A descriptor's address carries its entry's port, and nothing else of
      the entry decides it. */
  lemma DescriptorCarriesPort(sd: ServerConf)
    ensures PortOf(Descriptor(sd).address) == Some(sd.port)
    ensures forall other: ServerConf :: Descriptor(other).address == Descriptor(sd).address <==> other.port == sd.port
  {
    AddressRoundTrip(sd.port);
    forall other: ServerConf
      ensures Descriptor(other).address == Descriptor(sd).address <==> other.port == sd.port
    {
      AddressInjective(other.port, sd.port);
    }
  }

  /** Entries that differ only in their host get the same address. */
  lemma DescriptorIgnoresHost(sd: ServerConf, host: string)
    ensures Descriptor(sd.(host := host)).address == Descriptor(sd).address
  {
  }

  /** The loop that turns the parsed entries into descriptors, in order. */
  method BuildServers(entries: seq<ServerConf>) returns (srvs: seq<Server>)
    ensures |srvs| == |entries|
    ensures forall i | 0 <= i < |srvs| :: srvs[i] == Descriptor(entries[i])
  {
    srvs := [];
    var i := 0;
    while i < |entries|
      invariant 0 <= i <= |entries|
      invariant |srvs| == i
      invariant forall j | 0 <= j < i :: srvs[j] == Descriptor(entries[j])
    {
      var d := Descriptor(entries[i]);
      srvs := srvs + [d];
      assert srvs[i] == d;
      i := i + 1;
    }
  }

  /** Reads and parses the configuration, then builds one descriptor per entry.
      `unmarshal` stands for yaml.Unmarshal into the `servers` list. */
  method ConnectToServers(file: ConfigFile, unmarshal: string -> Option<seq<ServerConf>>)
    returns (r: Result<seq<Server>, ConfigError>)
    ensures file.Unreadable? <==> r == Failure(ReadError)
    ensures r == Failure(YamlError) <==> file.Readable? && unmarshal(file.content).None?
    ensures r.Success? ==> file.Readable? && unmarshal(file.content).Some?
    ensures r.Success? ==> |r.value| == |unmarshal(file.content).value|
    ensures r.Success? ==> forall i | 0 <= i < |r.value| ::
      r.value[i] == Descriptor(unmarshal(file.content).value[i])
  {
    if file.Unreadable? {
      return Failure(ReadError);
    }
    var parsed := unmarshal(file.content);
    if parsed.None? {
      return Failure(YamlError);
    }
    var srvs := BuildServers(parsed.value);
    return Success(srvs);
  }

  /** Reads the flag the backend's own handler lowers and raises; the lock
      around it is not modelled. */
  function IsFree(s: Server): (b: bool)
    ensures b <==> s.free
  {
    s.free
  }

  /** The backend's view of one request: busy while dwelling, then free again. */
  datatype Dwell = Dwell(during: Server, after: Server, answer: string)

  function ServeRequest(s: Server): (d: Dwell)
    ensures !IsFree(d.during) && IsFree(d.after)
    ensures d.during.(free := s.free) == s && d.after.(free := s.free) == s
    ensures d.answer == "Server " + s.address + " answer"
  {
    var busy := s.(free := false);
    var done := busy.(free := true);
    Dwell(busy, done, "Server " + done.address + " answer")
  }
}

=== FILE: users.dfy ===
/** The per-user token buckets. The users table is a map from the unique
    `name` column to the row's other columns; each SQL statement of the source
    is a pure transition of that map. The columns have PostgreSQL's widths: the
    numbers are INTEGER (32-bit), `name` is VARCHAR(100) and `api_key` is
    VARCHAR(64). A statement PostgreSQL refuses fails as a whole and leaves
    the table as it was. */
module Users {
  import opened Wrappers

  /** Bucket size, starting balance and refill rate given to a new user. */
  const DefaultCapacity: int := 5
  const DefaultRatePerSec: int := 1

  /** The range of an INTEGER column and of INTEGER arithmetic. */
  const MinInt4: int := -0x8000_0000
  const MaxInt4: int := 0x7fff_ffff

  /** The declared widths of the `name` and `api_key` columns. */
  const NameWidth: nat := 100
  const ApiKeyWidth: nat := 64

  predicate InInt4(x: int) {
    MinInt4 <= x <= MaxInt4
  }

  /** One row of the users table, without its key. The API key is stored only
      as a digest (the hash function is foreign and is a parameter here). */
  datatype Row = Row(apiKeyDigest: string, capacity: int, currentCapacity: int, ratePerSec: int)

  type Store = map<string, Row>

  /** The authenticated user as the request handlers hold it: a snapshot of
      the row taken when the API key was checked. */
  datatype User = User(name: string, capacity: int, ratePerSec: int, currentCapacity: int)

  /** The body of a token-change request. */
  datatype TokensUser = TokensUser(capacity: int, ratePerSec: int)

  datatype CreateUserResponse = CreateUserResponse(name: string, capacity: int, ratePerSec: int, apiKey: string)

  datatype UserError =
    | UniqueViolation       // the INSERT hit the UNIQUE name or api_key column
    | TokenLimitExceeded    // no token left for this request
    | InappropriateTokens   // rejected capacity/rate pair
    | IntegerOutOfRange     // an INTEGER value or INTEGER sum left the 32-bit range
    | ValueTooLong          // a string does not fit its VARCHAR column

  /** SQL `LEAST` and `GREATEST` of two integers. */
  function Least(a: int, b: int): int {
    if a <= b then a else b
  }

  function Greatest(a: int, b: int): int {
    if a >= b then a else b
  }

  function UserOf(s: Store, name: string): User
    requires name in s
  {
    User(name, s[name].capacity, s[name].ratePerSec, s[name].currentCapacity)
  }

  /** The table once a statement has run: a refused statement is rolled back. */
  function TableAfter(r: Result<Store, UserError>, s: Store): Store {
    if r.Success? then r.value else s
  }

  predicate RowInRange(r: Row) {
    InInt4(r.capacity) && InInt4(r.currentCapacity) && InInt4(r.ratePerSec)
  }

  /** What the INTEGER columns allow: every table satisfies this. */
  predicate StoreInRange(s: Store) {
    forall n | n in s :: RowInRange(s[n])
  }

  predicate NonNegative(r: Row) {
    0 <= r.currentCapacity && 0 <= r.capacity && 0 <= r.ratePerSec
  }

  predicate StoreNonNegative(s: Store) {
    forall n | n in s :: NonNegative(s[n])
  }

  /** `0 <= current <= capacity` for every user. */
  predicate StoreBounded(s: Store) {
    forall n | n in s :: 0 <= s[n].currentCapacity <= s[n].capacity
  }

  // ---------------------------------------------------------------------------
  // Refill: `SET current_capacity = LEAST(current_capacity + rate_per_sec, capacity)`

  /** One row's refill: add the rate, but never beyond the capacity. */
  function Refill(r: Row): (r': Row)
    ensures r' == r.(currentCapacity := r'.currentCapacity)
    ensures r'.currentCapacity <= r.capacity
    ensures r'.currentCapacity <= r.currentCapacity + r.ratePerSec
    ensures r'.currentCapacity == r.capacity || r'.currentCapacity == r.currentCapacity + r.ratePerSec
    ensures 0 <= r.currentCapacity && 0 <= r.ratePerSec && 0 <= r.capacity ==> 0 <= r'.currentCapacity
  {
    r.(currentCapacity := Least(r.currentCapacity + r.ratePerSec, r.capacity))
  }

  /** The INTEGER sum inside LEAST does not overflow for this row. */
  predicate RefillFits(r: Row) {
    InInt4(r.currentCapacity + r.ratePerSec)
  }

  /** The periodic refill of every user (the UPDATE has no WHERE clause). The
      sum `current_capacity + rate_per_sec` is INTEGER arithmetic: one row
      whose sum overflows makes the whole statement fail, and no row is
      refilled. */
  function UpdateTokens(s: Store): (r: Result<Store, UserError>)
    ensures r.Failure? <==> exists n | n in s :: !RefillFits(s[n])
    ensures r.Failure? ==> r.error == IntegerOutOfRange
    ensures r.Success? ==> r.value.Keys == s.Keys && forall n | n in s :: r.value[n] == Refill(s[n])
    ensures r.Success? ==> forall n | n in r.value :: r.value[n].currentCapacity <= r.value[n].capacity
    ensures r.Success? && StoreInRange(s) ==> StoreInRange(r.value)
  {
    if exists n | n in s :: !RefillFits(s[n]) then Failure(IntegerOutOfRange)
    else Success(map n | n in s :: Refill(s[n]))
  }

  /** The refill computed in 64-bit arithmetic,
      `LEAST(current_capacity::bigint + rate_per_sec, capacity)`: only a
      result that does not fit the column can fail. */
  function UpdateTokensWide(s: Store): (r: Result<Store, UserError>)
    ensures r.Failure? ==> r.error == IntegerOutOfRange
    ensures r.Success? ==> r.value.Keys == s.Keys && forall n | n in s :: r.value[n] == Refill(s[n])
    ensures StoreInRange(s) && StoreNonNegative(s) ==>
      && r.Success?
      && StoreInRange(r.value) && StoreNonNegative(r.value) && StoreBounded(r.value)
    ensures StoreInRange(s) && UpdateTokens(s).Success? ==> r == UpdateTokens(s)
  {
    if exists n | n in s :: !InInt4(Refill(s[n]).currentCapacity) then Failure(IntegerOutOfRange)
    else Success(map n | n in s :: Refill(s[n]))
  }

  /** `k` refills with nothing else in between. */
  function Ticks(k: nat): (ops: seq<StoreOp>)
    ensures |ops| == k
    ensures forall i | 0 <= i < k :: ops[i] == Tick
  {
    seq(k, _ => Tick)
  }

  // ---------------------------------------------------------------------------
  // Consumption: `SET current_capacity = GREATEST(current_capacity - 1, 0) WHERE name = $1`

  /** One row's consumption: one token less, but never below zero. */
  function Consume(r: Row): (r': Row)
    ensures r' == r.(currentCapacity := r'.currentCapacity)
    ensures 0 <= r'.currentCapacity
    ensures r.currentCapacity - 1 <= r'.currentCapacity
    ensures r'.currentCapacity == 0 || r'.currentCapacity == r.currentCapacity - 1
    ensures 0 <= r.currentCapacity ==> r'.currentCapacity <= r.currentCapacity
  {
    r.(currentCapacity := Greatest(r.currentCapacity - 1, 0))
  }

  /** RequestDone: consumes a token of the named user and of nobody else; an
      unknown name matches no row and changes nothing. `current_capacity - 1`
      is INTEGER arithmetic, so the lowest INTEGER balance makes the
      statement fail. */
  function RequestDone(s: Store, name: string): (r: Result<Store, UserError>)
    ensures r.Failure? <==> name in s && !InInt4(s[name].currentCapacity - 1)
    ensures r.Failure? ==> r.error == IntegerOutOfRange
    ensures StoreInRange(s) && r.Failure? ==> s[name].currentCapacity == MinInt4
    ensures r.Success? ==> r.value.Keys == s.Keys
    ensures r.Success? ==> forall n | n in s && n != name :: r.value[n] == s[n]
    ensures r.Success? && name in s ==> r.value[name] == Consume(s[name])
    ensures name !in s ==> r == Success(s)
    ensures r.Success? && StoreInRange(s) ==> StoreInRange(r.value)
  {
    if name !in s then Success(s)
    else if !InInt4(s[name].currentCapacity - 1) then Failure(IntegerOutOfRange)
    else Success(s[name := Consume(s[name])])
  }

  /** `k` RequestDone calls for the same user with no refill in between. */
  function RequestDoneRepeatedly(s: Store, name: string, k: nat): Store
    decreases k
  {
    if k == 0 then s else RequestDoneRepeatedly(TableAfter(RequestDone(s, name), s), name, k - 1)
  }

  /** After `k` consumptions the balance is `max(c - k, 0)` (for a negative
      start `c` only once at least one call was made); for a non-negative `c`
      that is a drop of exactly `min(k, c)`. The lowest INTEGER balance can
      never be consumed from. Other users keep theirs. */
  lemma {:induction false} RepeatedRequestDone(s: Store, name: string, k: nat)
    requires name in s && RowInRange(s[name])
    ensures var s' := RequestDoneRepeatedly(s, name, k);
      && s'.Keys == s.Keys
      && s'[name] == s[name].(currentCapacity := s'[name].currentCapacity)
      && (MinInt4 < s[name].currentCapacity && (0 <= s[name].currentCapacity || 0 < k) ==>
            s'[name].currentCapacity == Greatest(s[name].currentCapacity - k, 0))
      && (0 <= s[name].currentCapacity ==>
            s'[name].currentCapacity == s[name].currentCapacity - Least(k, s[name].currentCapacity))
      && (s[name].currentCapacity == MinInt4 ==> s' == s)
      && (forall n | n in s && n != name :: s'[n] == s[n])
    decreases k
  {
    if k > 0 {
      var s1 := TableAfter(RequestDone(s, name), s);
      RepeatedRequestDone(s1, name, k - 1);
      assert RequestDoneRepeatedly(s, name, k) == RequestDoneRepeatedly(s1, name, k - 1);
      if MinInt4 < s[name].currentCapacity {
        assert Greatest(s1[name].currentCapacity - (k - 1), 0) == Greatest(s[name].currentCapacity - k, 0);
      }
    }
  }

  // ---------------------------------------------------------------------------
  // Admission test on the snapshot

  function CheckCanRequest(u: User): (o: Outcome<UserError>)
    ensures o.Fail? <==> u.currentCapacity <= 0
    ensures o.Fail? ==> o.error == TokenLimitExceeded
  {
    if u.currentCapacity <= 0 then Fail(TokenLimitExceeded) else Pass
  }

  /** After a refill that succeeds, a user is admitted exactly when the
      balance plus the rate and the capacity are both positive; a user with a
      positive capacity and rate and a non-negative balance always is. */
  lemma RefillAdmits(s: Store, name: string)
    requires name in s && UpdateTokens(s).Success?
    ensures var r := s[name];
      CheckCanRequest(UserOf(UpdateTokens(s).value, name)).Pass? <==>
        r.currentCapacity + r.ratePerSec > 0 && r.capacity > 0
    ensures NonNegative(s[name]) && 0 < s[name].ratePerSec && 0 < s[name].capacity ==>
      CheckCanRequest(UserOf(UpdateTokens(s).value, name)).Pass?
  {
  }

  /** The refill example: an empty bucket of size 5 at rate 1 holds one token
      after one tick, and a request is then admitted. */
  lemma RefillThenAdmitExample(s: Store, name: string)
    requires name in s && s[name].capacity == 5 && s[name].ratePerSec == 1
    requires s[name].currentCapacity == 0
    requires forall n | n in s :: RefillFits(s[n])
    ensures UpdateTokens(s).Success?
    ensures UpdateTokens(s).value[name].currentCapacity == 1
    ensures CheckCanRequest(UserOf(UpdateTokens(s).value, name)).Pass?
  {
  }

  // ---------------------------------------------------------------------------
  // Changing capacity and rate

  datatype Changed = Changed(outcome: Outcome<UserError>, user: User, store: Store)

  /** `UPDATE users SET capacity = $1, rate_per_sec = $2 WHERE name = $3`,
      for values that fit the INTEGER columns. */
  function SetTokens(s: Store, name: string, t: TokensUser): (s': Store)
    ensures s'.Keys == s.Keys
    ensures forall n | n in s && n != name :: s'[n] == s[n]
    ensures name in s ==> s'[name].apiKeyDigest == s[name].apiKeyDigest
    ensures name in s ==> s'[name].currentCapacity == s[name].currentCapacity
    ensures name in s ==> s'[name].capacity == t.capacity && s'[name].ratePerSec == t.ratePerSec
    ensures StoreInRange(s) && InInt4(t.capacity) && InInt4(t.ratePerSec) ==> StoreInRange(s')
  {
    if name in s then s[name := s[name].(capacity := t.capacity, ratePerSec := t.ratePerSec)] else s
  }

  /** The source's ChangeTokens: only a pair whose values are both
      non-positive is refused before anything changes. Otherwise the snapshot
      takes the new values at once, and then the UPDATE runs; a value that
      does not fit an INTEGER column makes the UPDATE fail, so the table keeps
      its old values while the snapshot holds the new ones. */
  function ChangeTokens(u: User, s: Store, t: TokensUser): (c: Changed)
    ensures c.outcome.Fail? <==>
      (t.capacity <= 0 && t.ratePerSec <= 0) || !InInt4(t.capacity) || !InInt4(t.ratePerSec)
    ensures t.capacity <= 0 && t.ratePerSec <= 0 ==> c == Changed(Fail(InappropriateTokens), u, s)
    ensures c.outcome == Fail(InappropriateTokens) <==> t.capacity <= 0 && t.ratePerSec <= 0
    ensures c.outcome.Fail? ==> c.outcome.error == InappropriateTokens || c.outcome.error == IntegerOutOfRange
    ensures !(t.capacity <= 0 && t.ratePerSec <= 0) && (!InInt4(t.capacity) || !InInt4(t.ratePerSec)) ==>
      c.outcome == Fail(IntegerOutOfRange) && c.store == s
    ensures c.outcome != Fail(InappropriateTokens) ==> c.user == u.(capacity := t.capacity, ratePerSec := t.ratePerSec)
    ensures c.outcome == Fail(IntegerOutOfRange) ==> c.store == s
    ensures c.outcome.Pass? ==> c.store == SetTokens(s, u.name, t)
    ensures StoreInRange(s) ==> StoreInRange(c.store)
  {
    if t.capacity <= 0 && t.ratePerSec <= 0 then Changed(Fail(InappropriateTokens), u, s)
    else
      var u' := u.(capacity := t.capacity, ratePerSec := t.ratePerSec);
      if !InInt4(t.capacity) || !InInt4(t.ratePerSec) then Changed(Fail(IntegerOutOfRange), u', s)
      else Changed(Pass, u', SetTokens(s, u.name, t))
  }

  lemma ChangeTokensExamples(u: User, s: Store)
    ensures ChangeTokens(u, s, TokensUser(0, 0)).outcome.Fail?
    ensures ChangeTokens(u, s, TokensUser(5, 0)).outcome.Pass?
    ensures ChangeTokens(u, s, TokensUser(5, -3)).outcome.Pass?
    ensures ChangeTokens(u, s, TokensUser(5, MinInt4)).outcome.Pass?
    ensures var c := ChangeTokens(u, s, TokensUser(MaxInt4 + 1, 1));
      c.outcome == Fail(IntegerOutOfRange) && c.store == s && c.user.capacity == MaxInt4 + 1
  {
  }

  /** Lowering the capacity below the balance is not clamped at once, but the
      next refill that succeeds brings the balance under the new capacity. */
  lemma ChangeThenRefillBounded(u: User, s: Store, t: TokensUser)
    requires u.name in s && ChangeTokens(u, s, t).outcome.Pass?
    ensures var r := UpdateTokens(ChangeTokens(u, s, t).store);
      r.Success? ==> r.value[u.name].currentCapacity <= t.capacity
  {
  }

  /** A pair that cannot drive a bucket negative or out of its column: not
      both non-positive (as the source demands), neither negative, and both
      INTEGER values. */
  predicate AcceptableTokens(t: TokensUser) {
    && !(t.capacity <= 0 && t.ratePerSec <= 0)
    && 0 <= t.capacity <= MaxInt4
    && 0 <= t.ratePerSec <= MaxInt4
  }

  /** ChangeTokens with the guard that keeps every bucket non-negative: the
      check runs before the snapshot is touched. */
  function ChangeTokensGuarded(u: User, s: Store, t: TokensUser): (c: Changed)
    ensures c.outcome.Fail? <==>
      || (t.capacity <= 0 && t.ratePerSec <= 0)
      || t.capacity < 0 || t.ratePerSec < 0
      || MaxInt4 < t.capacity || MaxInt4 < t.ratePerSec
    ensures c.outcome.Fail? ==> c.outcome.error == InappropriateTokens && c.user == u && c.store == s
    ensures c.outcome.Pass? ==> c.user == u.(capacity := t.capacity, ratePerSec := t.ratePerSec)
    ensures c.outcome.Pass? ==> c.store == SetTokens(s, u.name, t)
    ensures (0 < t.capacity || 0 < t.ratePerSec) && 0 <= t.capacity <= MaxInt4 && 0 <= t.ratePerSec <= MaxInt4 ==>
      c == ChangeTokens(u, s, t)
  {
    if !AcceptableTokens(t) then Changed(Fail(InappropriateTokens), u, s)
    else Changed(Pass, u.(capacity := t.capacity, ratePerSec := t.ratePerSec), SetTokens(s, u.name, t))
  }

  // ---------------------------------------------------------------------------
  // Registration

  datatype Created = Created(response: Result<CreateUserResponse, UserError>, store: Store)

  predicate KeyInUse(s: Store, digest: string) {
    exists n | n in s :: s[n].apiKeyDigest == digest
  }

  /** Storing a string in a VARCHAR(width) column: a longer string is refused
      unless everything past the width is spaces, which are then cut off. */
  function FitVarchar(v: string, width: nat): (r: Option<string>)
    ensures r.Some? <==> |v| <= width || forall i | width <= i < |v| :: v[i] == ' '
    ensures r.Some? ==> |r.value| <= width && r.value <= v
    ensures |v| <= width ==> r == Some(v)
  {
    if |v| <= width then Some(v)
    else if forall i | width <= i < |v| :: v[i] == ' ' then Some(v[..width])
    else None
  }

  /** Inserts a user with the default bucket. `apiKey` is the freshly generated
      key and `digest` its hash (both foreign). The pre-check of the source can
      never succeed, so the INSERT alone decides: a value too long for its
      column, a taken name or a taken digest (after any trailing spaces beyond
      the width are cut) is refused, and the table is then unchanged. The
      response echoes the name as it was given. */
  function CreateUser(s: Store, name: string, apiKey: string, digest: string): (c: Created)
    ensures c.response.Failure? ==> c.store == s
    ensures (exists i | NameWidth <= i < |name| :: name[i] != ' ') ==> c == Created(Failure(ValueTooLong), s)
    ensures (exists i | ApiKeyWidth <= i < |digest| :: digest[i] != ' ') ==> c == Created(Failure(ValueTooLong), s)
    ensures |name| <= NameWidth && |digest| <= ApiKeyWidth ==>
      && (c.response.Success? <==> name !in s && !KeyInUse(s, digest))
      && (name in s ==> c.response == Failure(UniqueViolation))
    ensures FitVarchar(name, NameWidth).Some? && FitVarchar(digest, ApiKeyWidth).Some? ==>
      var key := FitVarchar(name, NameWidth).value;
      var stored := FitVarchar(digest, ApiKeyWidth).value;
      && (c.response.Success? <==> key !in s && !KeyInUse(s, stored))
      && (key in s || KeyInUse(s, stored) ==> c.response == Failure(UniqueViolation))
    ensures c.response.Success? ==>
      var key := if |name| <= NameWidth then name else name[..NameWidth];
      var stored := if |digest| <= ApiKeyWidth then digest else digest[..ApiKeyWidth];
      && c.response.value == CreateUserResponse(name, DefaultCapacity, DefaultRatePerSec, apiKey)
      && key !in s && !KeyInUse(s, stored)
      && c.store == s[key := Row(stored, DefaultCapacity, DefaultCapacity, DefaultRatePerSec)]
    ensures StoreInRange(s) ==> StoreInRange(c.store)
  {
    var key := FitVarchar(name, NameWidth);
    var stored := FitVarchar(digest, ApiKeyWidth);
    if key.None? || stored.None? then Created(Failure(ValueTooLong), s)
    else if key.value in s || KeyInUse(s, stored.value) then Created(Failure(UniqueViolation), s)
    else
      Created(Success(CreateUserResponse(name, DefaultCapacity, DefaultRatePerSec, apiKey)),
              s[key.value := Row(stored.value, DefaultCapacity, DefaultCapacity, DefaultRatePerSec)])
  }

  /** A 101-character name is refused, while one whose 101st character is a
      trailing space is stored cut to 100 characters. */
  lemma CreateUserWidthExample(s: Store, apiKey: string, digest: string)
    requires |digest| <= ApiKeyWidth && !KeyInUse(s, digest) && s == map[]
    ensures CreateUser(s, seq(101, _ => 'a'), apiKey, digest).response == Failure(ValueTooLong)
    ensures var name := seq(100, _ => 'a') + " ";
      && CreateUser(s, name, apiKey, digest).response.Success?
      && CreateUser(s, name, apiKey, digest).store.Keys == {seq(100, _ => 'a')}
  {
    var long := seq(101, _ => 'a');
    assert long[100] != ' ';
    var name := seq(100, _ => 'a') + " ";
    assert name[..100] == seq(100, _ => 'a');
  }

  // ---------------------------------------------------------------------------
  // Bucket invariants over any interleaving of the statements

  /** One statement against the table. */
  datatype StoreOp =
    | Tick
    | Done(name: string)
    | Change(name: string, tokens: TokensUser)
    | Create(name: string, apiKey: string, digest: string)

  /** Applies one statement; a refused statement leaves the table as it was.
      `corrected` chooses ChangeTokensGuarded and the 64-bit refill over the
      source's ChangeTokens and INTEGER refill. A change for an unknown name
      has no snapshot to start from and does nothing. */
  function Step(s: Store, op: StoreOp, corrected: bool): Store {
    match op
    case Tick => TableAfter(if corrected then UpdateTokensWide(s) else UpdateTokens(s), s)
    case Done(name) => TableAfter(RequestDone(s, name), s)
    case Change(name, t) =>
      if name !in s then s
      else if corrected then ChangeTokensGuarded(UserOf(s, name), s, t).store
      else ChangeTokens(UserOf(s, name), s, t).store
    case Create(name, apiKey, digest) => CreateUser(s, name, apiKey, digest).store
  }

  function Replay(s: Store, ops: seq<StoreOp>, corrected: bool): Store
    decreases |ops|
  {
    if |ops| == 0 then s else Replay(Step(s, ops[0], corrected), ops[1..], corrected)
  }

  /** Every statement, as written or corrected, keeps every column within the
      INTEGER range. */
  lemma {:induction false} ReplayKeepsInRange(s: Store, ops: seq<StoreOp>, corrected: bool)
    requires StoreInRange(s)
    ensures StoreInRange(Replay(s, ops, corrected))
    decreases |ops|
  {
    if |ops| > 0 {
      var s1 := Step(s, ops[0], corrected);
      assert StoreInRange(s1) by {
        match ops[0]
        case Tick =>
        case Done(name) =>
        case Change(name, t) =>
          if name in s && corrected {
            var c := ChangeTokensGuarded(UserOf(s, name), s, t);
            assert c.outcome.Pass? ==> InInt4(t.capacity) && InInt4(t.ratePerSec);
          }
        case Create(name, apiKey, digest) =>
      }
      ReplayKeepsInRange(s1, ops[1..], corrected);
    }
  }

  lemma StepKeepsNonNegative(s: Store, op: StoreOp)
    requires StoreNonNegative(s) && StoreInRange(s)
    ensures StoreNonNegative(Step(s, op, true)) && StoreInRange(Step(s, op, true))
  {
  }

  /** With the corrected statements no sequence of them drives a bucket
      negative or out of its column; since a new table is empty, this holds
      of every table, and so (TickBounds) every refill succeeds. */
  lemma {:induction false} GuardedReplayKeepsNonNegative(s: Store, ops: seq<StoreOp>)
    requires StoreNonNegative(s) && StoreInRange(s)
    ensures StoreNonNegative(Replay(s, ops, true)) && StoreInRange(Replay(s, ops, true))
    decreases |ops|
  {
    if |ops| > 0 {
      StepKeepsNonNegative(s, ops[0]);
      GuardedReplayKeepsNonNegative(Step(s, ops[0], true), ops[1..]);
    }
  }

  /** On a non-negative table the 64-bit refill always succeeds and leaves
      every bucket within `0 <= current <= capacity`. */
  lemma TickBounds(s: Store)
    requires StoreNonNegative(s) && StoreInRange(s)
    ensures UpdateTokensWide(s).Success?
    ensures StoreBounded(UpdateTokensWide(s).value)
  {
  }

  /** Once one row's refill sum leaves the INTEGER range, every later refill
      fails as a whole: no user, however far from it, is refilled again. */
  lemma {:induction false} OverflowStopsRefills(s: Store, name: string, k: nat)
    requires name in s && !RefillFits(s[name])
    ensures Replay(s, Ticks(k), false) == s
    decreases k
  {
    if k > 0 {
      assert UpdateTokens(s).Failure?;
      assert Ticks(k)[1..] == Ticks(k - 1);
      OverflowStopsRefills(s, name, k - 1);
    }
  }
}

=== FILE: users_scenarios.dfy ===
/** Concrete traces of the users table's statements: the two scenarios that
    show the source's ChangeTokens guard and its INTEGER refill going wrong.
    Each statement of a trace is taken by its own small lemma of the form
    "the statement at the head of the replay runs first". */
module UsersScenarios {
  import opened Users

  /** A refill with no overflow refills every row. */
  lemma TickStep(s: Store)
    requires forall n | n in s :: RefillFits(s[n])
    ensures Step(s, Tick, false) == map n | n in s :: Refill(s[n])
  {
  }

  /** A table whose every row is the refill of the same row of s is the refill of s. */
  lemma RefillEach(s: Store, t: Store)
    requires s.Keys == t.Keys && forall n | n in s :: Refill(s[n]) == t[n]
    ensures (map n | n in s :: Refill(s[n])) == t
  {
  }

  /** A refill of a one-user table. */
  lemma TickSingle(u: string, r: Row)
    requires RefillFits(r)
    ensures Step(map[u := r], Tick, false) == map[u := Refill(r)]
  {
    TickStep(map[u := r]);
    assert (map n | n in map[u := r] :: Refill(map[u := r][n])) == map[u := Refill(r)];
  }

  /** The first statement of a replay runs first. */
  lemma ReplayFirst(s: Store, ops: seq<StoreOp>, corrected: bool)
    requires |ops| > 0
    ensures Replay(s, ops, corrected) == Replay(Step(s, ops[0], corrected), ops[1..], corrected)
  {
  }

  /** Two refills of a user at capacity 5 and rate -3 who holds 5 tokens. */
  lemma NegativeRateTicks(u: string, d: string)
    ensures Replay(map[u := Row(d, 5, 5, -3)], [Tick, Tick], false) == map[u := Row(d, 5, -1, -3)]
  {
    TickSingle(u, Row(d, 5, 5, -3));
    TickSingle(u, Row(d, 5, 2, -3));
    ReplayFirst(map[u := Row(d, 5, 5, -3)], [Tick, Tick], false);
    ReplayFirst(map[u := Row(d, 5, 2, -3)], [Tick], false);
  }

  /** A new user starts with 5 tokens, capacity 5 and rate 1. */
  lemma CreateFirst(s: Store, u: string, key: string, d: string, ops: seq<StoreOp>)
    requires |u| <= NameWidth && |d| <= ApiKeyWidth && u !in s
    requires forall n | n in s :: s[n].apiKeyDigest != d
    requires |ops| > 0 && ops[0] == Create(u, key, d)
    ensures Replay(s, ops, false) == Replay(s[u := Row(d, 5, 5, 1)], ops[1..], false)
  {
    ReplayFirst(s, ops, false);
  }

  /** Setting capacity 5 and rate -3 on that user keeps the balance of 5. */
  lemma ChangeFirst(u: string, d: string, ops: seq<StoreOp>)
    requires |ops| > 0 && ops[0] == Change(u, TokensUser(5, -3))
    ensures Replay(map[u := Row(d, 5, 5, 1)], ops, false) == Replay(map[u := Row(d, 5, 5, -3)], ops[1..], false)
  {
    var s := map[u := Row(d, 5, 5, 1)];
    ChangeReplay(s, u, TokensUser(5, -3), ops);
    assert s[u := s[u].(capacity := 5, ratePerSec := -3)] == map[u := Row(d, 5, 5, -3)];
  }

  /** With the source's ChangeTokens a new user (balance 5) who sets capacity 5
      and rate -3 holds 2 tokens after one refill and -1 after the second. */
  lemma AsWrittenReplayGoesNegative(u: string, key: string, d: string)
    requires |u| <= NameWidth && |d| <= ApiKeyWidth
    ensures var s := Replay(map[], [Create(u, key, d), Change(u, TokensUser(5, -3)), Tick, Tick], false);
      && u in s && s[u].currentCapacity == -1
  {
    var ops := [Create(u, key, d), Change(u, TokensUser(5, -3)), Tick, Tick];
    CreateFirst(map[], u, key, d, ops);
    ChangeFirst(u, d, ops[1..]);
    assert ops[1..][1..] == [Tick, Tick];
    NegativeRateTicks(u, d);
  }

  /** User u sets capacity 5 and the lowest INTEGER rate. */
  lemma OverflowChange(u: string, v: string, du: string, dv: string, ops: seq<StoreOp>)
    requires u != v
    requires |ops| > 0 && ops[0] == Change(u, TokensUser(5, MinInt4))
    ensures Replay(map[u := Row(du, 5, 5, 1), v := Row(dv, 5, 5, 1)], ops, false)
         == Replay(map[u := Row(du, 5, 5, MinInt4), v := Row(dv, 5, 5, 1)], ops[1..], false)
  {
    var s := map[u := Row(du, 5, 5, 1), v := Row(dv, 5, 5, 1)];
    ChangeReplay(s, u, TokensUser(5, MinInt4), ops);
    UpdateFirstOfTwo(u, v, Row(du, 5, 5, 1), Row(dv, 5, 5, 1), Row(du, 5, 5, MinInt4));
  }

  /** An accepted, in-range change at the head of a replay runs first. */
  lemma ChangeReplay(s: Store, name: string, t: TokensUser, ops: seq<StoreOp>)
    requires name in s && !(t.capacity <= 0 && t.ratePerSec <= 0)
    requires InInt4(t.capacity) && InInt4(t.ratePerSec)
    requires |ops| > 0 && ops[0] == Change(name, t)
    ensures Replay(s, ops, false)
         == Replay(s[name := s[name].(capacity := t.capacity, ratePerSec := t.ratePerSec)], ops[1..], false)
  {
    ReplayFirst(s, ops, false);
  }

  /** Overwriting the first of two distinct keys. */
  lemma UpdateFirstOfTwo(u: string, v: string, a: Row, b: Row, c: Row)
    requires u != v
    ensures map[u := a, v := b][u := c] == map[u := c, v := b]
  {
  }

  /** The first refill still fits: u drops to -2147483643, v stays full. */
  lemma OverflowFirstTick(u: string, v: string, du: string, dv: string, ops: seq<StoreOp>)
    requires u != v
    requires |ops| > 0 && ops[0] == Tick
    ensures Replay(map[u := Row(du, 5, 5, MinInt4), v := Row(dv, 5, 5, 1)], ops, false)
         == Replay(map[u := Row(du, 5, -2147483643, MinInt4), v := Row(dv, 5, 5, 1)], ops[1..], false)
  {
    var s := map[u := Row(du, 5, 5, MinInt4), v := Row(dv, 5, 5, 1)];
    var s' := map[u := Row(du, 5, -2147483643, MinInt4), v := Row(dv, 5, 5, 1)];
    assert Refill(s[u]) == s'[u] && Refill(s[v]) == s'[v];
    TickStep(s);
    RefillEach(s, s');
    ReplayFirst(s, ops, false);
  }

  /** User v spends one token. */
  lemma OverflowDone(u: string, v: string, du: string, dv: string, ops: seq<StoreOp>)
    requires u != v
    requires |ops| > 0 && ops[0] == Done(v)
    ensures Replay(map[u := Row(du, 5, -2147483643, MinInt4), v := Row(dv, 5, 5, 1)], ops, false)
         == Replay(map[u := Row(du, 5, -2147483643, MinInt4), v := Row(dv, 5, 4, 1)], ops[1..], false)
  {
    var s := map[u := Row(du, 5, -2147483643, MinInt4), v := Row(dv, 5, 5, 1)];
    assert s[v := Consume(s[v])] == map[u := Row(du, 5, -2147483643, MinInt4), v := Row(dv, 5, 4, 1)];
    ReplayFirst(s, ops, false);
  }

  /** With the source's statements, user u changes to capacity 5 and rate
      -2147483648. The first refill takes u to -2147483643; after another
      user v spends a token, the next refill overflows for u, so v is not
      refilled either, and neither is by any later refill. */
  lemma AsWrittenOverflowStopsRefills(u: string, v: string, ku: string, kv: string, du: string, dv: string, k: nat)
    requires u != v && du != dv
    requires |u| <= NameWidth && |v| <= NameWidth && |du| <= ApiKeyWidth && |dv| <= ApiKeyWidth
    ensures var s := Replay(map[], [Create(u, ku, du), Create(v, kv, dv),
                                    Change(u, TokensUser(5, MinInt4)), Tick, Done(v), Tick], false);
      && u in s && v in s
      && s[u].currentCapacity == -2147483643
      && s[v].currentCapacity == 4
      && UpdateTokens(s).Failure?
      && Replay(s, Ticks(k), false) == s
  {
    var s5 := map[u := Row(du, 5, -2147483643, MinInt4), v := Row(dv, 5, 4, 1)];
    OverflowTrace(u, v, ku, kv, du, dv);
    OverflowStopsRefills(s5, u, k);
  }

  /** The six statements of the overflow scenario: three that set it up and
      three that run it. */
  lemma OverflowTrace(u: string, v: string, ku: string, kv: string, du: string, dv: string)
    requires u != v && du != dv
    requires |u| <= NameWidth && |v| <= NameWidth && |du| <= ApiKeyWidth && |dv| <= ApiKeyWidth
    ensures Replay(map[], [Create(u, ku, du), Create(v, kv, dv),
                           Change(u, TokensUser(5, MinInt4)), Tick, Done(v), Tick], false)
         == map[u := Row(du, 5, -2147483643, MinInt4), v := Row(dv, 5, 4, 1)]
  {
    var ops := [Create(u, ku, du), Create(v, kv, dv),
                Change(u, TokensUser(5, MinInt4)), Tick, Done(v), Tick];
    OverflowSetup(u, v, ku, kv, du, dv, ops);
    assert ops[3..] == [Tick, Done(v), Tick];
    OverflowRun(u, v, du, dv, ops[3..]);
  }

  /** Two users join, and u changes to capacity 5 and the lowest INTEGER rate. */
  lemma OverflowSetup(u: string, v: string, ku: string, kv: string, du: string, dv: string, ops: seq<StoreOp>)
    requires u != v && du != dv
    requires |u| <= NameWidth && |v| <= NameWidth && |du| <= ApiKeyWidth && |dv| <= ApiKeyWidth
    requires |ops| >= 3 && ops[0] == Create(u, ku, du) && ops[1] == Create(v, kv, dv)
    requires ops[2] == Change(u, TokensUser(5, MinInt4))
    ensures Replay(map[], ops, false)
         == Replay(map[u := Row(du, 5, 5, MinInt4), v := Row(dv, 5, 5, 1)], ops[3..], false)
  {
    CreateFirst(map[], u, ku, du, ops);
    CreateFirst(map[u := Row(du, 5, 5, 1)], v, kv, dv, ops[1..]);
    assert ops[1..][1..] == ops[2..];
    OverflowChange(u, v, du, dv, ops[2..]);
    assert ops[2..][1..] == ops[3..];
  }

  /** A refill that fits, a consumption by v, and a refill that overflows. */
  lemma OverflowRun(u: string, v: string, du: string, dv: string, ops: seq<StoreOp>)
    requires u != v
    requires ops == [Tick, Done(v), Tick]
    ensures Replay(map[u := Row(du, 5, 5, MinInt4), v := Row(dv, 5, 5, 1)], ops, false)
         == map[u := Row(du, 5, -2147483643, MinInt4), v := Row(dv, 5, 4, 1)]
  {
    var s5 := map[u := Row(du, 5, -2147483643, MinInt4), v := Row(dv, 5, 4, 1)];
    OverflowFirstTick(u, v, du, dv, ops);
    OverflowDone(u, v, du, dv, ops[1..]);
    assert ops[1..][1..] == [Tick];
    assert u in s5 && !RefillFits(s5[u]);
    assert UpdateTokens(s5).Failure?;
    ReplayFirst(s5, [Tick], false);
  }
}

=== FILE: web.dfy ===
/** BalancerHandler: the fixed-order admission pipeline of one balanced
    request — method, rate limit, round robin, proxy cache, forward, consume. */
module Web {
  import opened Wrappers
  import opened RoundRobin
  import opened Users
  import opened Proxy

  const MethodGet: string := "GET"

  const StatusMethodNotAllowed: int := 405
  const StatusTooManyRequests: int := 429
  const StatusInternalServerError: int := 500
  const StatusServiceUnavailable: int := 503

  /** The shared state one request may touch. */
  datatype State = State(pool: Pool, store: Store, cache: ProxyCache)

  /** The interactions of the handler, in the order the code makes them. */
  datatype Stage = CheckLimit | CallRedirect | CacheGet | ServeProxy | ConsumeToken

  const FullOrder: seq<Stage> := [CheckLimit, CallRedirect, CacheGet, ServeProxy, ConsumeToken]

  /** How a request ends. Once the proxy has written the backend's answer, the
      400 written for a failed token update can no longer change the status;
      the failure only shows alongside it. */
  datatype Ending =
    | MethodNotAllowed
    | RateLimited
    | NoServer
    | InvalidTarget
    | Proxied(backendStatus: int, tokenError: bool)

  /** The status the client sees: the handler's own error status on an early
      exit, the backend's status once the request was proxied. */
  function StatusCode(o: Ending): (code: int)
    ensures o.Proxied? ==> code == o.backendStatus
    ensures !o.Proxied? ==> 400 <= code < 600
    ensures o == MethodNotAllowed || o == RateLimited <==> 400 <= code < 500 && !o.Proxied?
  {
    match o
    case MethodNotAllowed => StatusMethodNotAllowed
    case RateLimited => StatusTooManyRequests
    case NoServer => StatusServiceUnavailable
    case InvalidTarget => StatusInternalServerError
    case Proxied(status, _) => status
  }

  datatype Handled = Handled(outcome: Ending, forwarded: Option<Request>, state: State, trace: seq<Stage>)

  /** Handles one request of the authenticated `user` (the snapshot taken by
      the authentication wrapper). Foreign collaborators are parameters:
      `parse` is url.Parse, `backendStatus` is what the relay to the backend
      answered, and `commitOk` says whether RequestDone's transaction
      committed. When RequestDone's statement fails, or its commit does, the
      table is rolled back and the token error is reported. */
  function BalancerHandler(st: State, user: User, req: Request, parse: string -> Option<Url>,
                           backendStatus: int, commitOk: bool): (h: Handled)
    requires req.verb == MethodGet && user.currentCapacity > 0 ==> Valid(st.pool)
    // the interactions happen in the fixed order, each at most once
    ensures h.trace <= FullOrder
    ensures h.outcome == MethodNotAllowed <==> req.verb != MethodGet
    ensures h.outcome == RateLimited <==> req.verb == MethodGet && CheckCanRequest(user).Fail?
    ensures h.outcome.Proxied? <==> h.trace == FullOrder
    ensures CallRedirect in h.trace <==> req.verb == MethodGet && CheckCanRequest(user).Pass?
    // early exits leave untouched what they did not reach
    ensures h.trace == [] <==> h.outcome == MethodNotAllowed
    ensures CallRedirect !in h.trace ==> h.state.pool == st.pool
    ensures CallRedirect in h.trace ==> h.state.pool == Redirect(st.pool).pool
    ensures CacheGet !in h.trace ==> h.state.cache == st.cache
    ensures ConsumeToken !in h.trace ==> h.state.store == st.store
    ensures h.outcome.Proxied? ==>
      var done := RequestDone(st.store, user.name);
      h.state.store == (if commitOk && done.Success? then done.value else st.store)
    // a 503 comes from the round robin alone, before the cache is consulted;
    // a 500 from the cache alone
    ensures h.outcome == NoServer <==> CallRedirect in h.trace && Redirect(st.pool).address == ""
    ensures h.outcome == NoServer ==>
      h.trace == [CheckLimit, CallRedirect] && h.state.cache == st.cache && h.state.store == st.store
    ensures h.outcome == InvalidTarget <==>
      && CallRedirect in h.trace
      && Redirect(st.pool).address != ""
      && Get(st.cache, Redirect(st.pool).address, parse).handle.Failure?
    ensures h.outcome == InvalidTarget ==> h.state.cache == st.cache && h.state.store == st.store
    // an admitted GET whose chosen backend gets a handle is proxied
    ensures (&& req.verb == MethodGet && CheckCanRequest(user).Pass?
             && Redirect(st.pool).address != ""
             && Get(st.cache, Redirect(st.pool).address, parse).handle.Success?) ==> h.outcome.Proxied?
    ensures CallRedirect in h.trace && CacheGet in h.trace ==> h.state.cache == Get(st.cache, Redirect(st.pool).address, parse).cache
    // exactly the proxied requests reach a backend, and only to the chosen one
    ensures h.forwarded.Some? <==> h.outcome.Proxied?
    ensures h.outcome.Proxied? ==>
      && StatusCode(h.outcome) == backendStatus
      && (h.outcome.tokenError <==> !commitOk || RequestDone(st.store, user.name).Failure?)
    ensures h.forwarded.Some? ==>
      var target := Redirect(st.pool).address;
      && target != ""
      && (TargetsParsed(st.cache, parse) ==>
            parse(target).Some? &&
            h.forwarded.value.url.host == parse(target).value.host &&
            h.forwarded.value.url.scheme == parse(target).value.scheme)
      && h.forwarded.value.(url := req.url) == req
      && h.forwarded.value == Forward(Get(st.cache, target, parse).handle.value, req)
  {
    if req.verb != MethodGet then Handled(MethodNotAllowed, None, st, [])
    else if CheckCanRequest(user).Fail? then Handled(RateLimited, None, st, [CheckLimit])
    else
      var routed := Redirect(st.pool);
      var st1 := st.(pool := routed.pool);
      if routed.address == "" then Handled(NoServer, None, st1, [CheckLimit, CallRedirect])
      else
        var got := Get(st.cache, routed.address, parse);
        var st2 := st1.(cache := got.cache);
        match got.handle
        case Failure(_) => Handled(InvalidTarget, None, st2, [CheckLimit, CallRedirect, CacheGet])
        case Success(proxy) =>
          var fwd := Forward(proxy, req);
          var done := RequestDone(st.store, user.name);
          var committed := commitOk && done.Success?;
          var store := if committed then done.value else st.store;
          Handled(Proxied(backendStatus, !committed), Some(fwd), st2.(store := store), FullOrder)
  }

  /** An admitted GET whose cursor slot is free and whose address parses is
      forwarded to that backend's scheme and host, moves the cursor on,
      caches the handle and runs RequestDone exactly once, whose token is
      kept when the statement and its commit succeed. */
  lemma FreeSlotIsProxied(st: State, user: User, req: Request, parse: string -> Option<Url>,
                          backendStatus: int, commitOk: bool)
    requires req.verb == MethodGet && user.currentCapacity > 0 && Valid(st.pool)
    requires Servers.IsFree(st.pool.servers[st.pool.cursor])
    requires var a := st.pool.servers[st.pool.cursor].address;
      a != "" && (a in st.cache.cached || parse(a).Some?)
    ensures var a := st.pool.servers[st.pool.cursor].address;
      var h := BalancerHandler(st, user, req, parse, backendStatus, commitOk);
      var done := RequestDone(st.store, user.name);
      && h.outcome == Proxied(backendStatus, !(commitOk && done.Success?))
      && h.trace == FullOrder
      && multiset(h.trace)[ConsumeToken] == 1
      && h.state.pool.cursor == Next(st.pool.cursor, |st.pool.servers|)
      && a in h.state.cache.cached
      && h.forwarded == Some(Forward(h.state.cache.cached[a], req))
      && h.forwarded.value.url.host == h.state.cache.cached[a].target.host
      && (commitOk && done.Success? ==> h.state.store == done.value)
  {
  }

  /** Two requests against the pool {A busy, B free} with the cursor on A: the
      first gets 503 and moves the cursor to B; the second is proxied to B,
      consumes one token and wraps the cursor back to A. */
  lemma TwoRequestsExample(a: Servers.Server, b: Servers.Server, store: Store, user: User,
                           req: Request, bUrl: Url)
    requires !a.free && b.free && b.address != ""
    requires req.verb == MethodGet && user.currentCapacity > 0
    requires user.name in store && store[user.name].currentCapacity == user.currentCapacity
    requires RowInRange(store[user.name])
    ensures var parse := (s: string) => if s == b.address then Some(bUrl) else None;
      var st := State(Pool([a, b], 0), store, NewProxyCache());
      var h1 := BalancerHandler(st, user, req, parse, 200, true);
      var user2 := UserOf(h1.state.store, user.name);
      var h2 := BalancerHandler(h1.state, user2, req, parse, 200, true);
      && h1.outcome == NoServer && StatusCode(h1.outcome) == 503
      && h1.state == State(Pool([a, b], 1), store, NewProxyCache())
      && h2.outcome == Proxied(200, false)
      && h2.state.pool == Pool([a, b], 0)
      && h2.state.store[user.name].currentCapacity == user.currentCapacity - 1
      && h2.forwarded.Some? && h2.forwarded.value.url.host == bUrl.host
      && b.address in h2.state.cache.cached
  {
  }
}

=== FILE: wrappers.dfy ===
/** Failure-carrying result types shared by the model's modules. */
module Wrappers {

  /** A value that may be absent (Go's `ok` idiom, or a nil result). */
  datatype Option<+T> = None | Some(value: T)

  /** A value or an error (Go's `(T, error)` return pair). */
  datatype Result<+T, +E> = Success(value: T) | Failure(error: E)

  /** An error or nothing (Go's bare `error` return). */
  datatype Outcome<+E> = Pass | Fail(error: E)
}
